=== FILE: README.md ===
# Interval: a drift-correcting periodic scheduler, modelled in Dafny

The repository's one class, `Interval`, calls a function periodically. Each call
of `run(fn, duration, initial)` does the following:

- It anchors `baseline` on the clock the first time.
- It invokes `fn` unless this is the first call and `initial` is false.
- It moves `baseline` forward by exactly `duration`.
- It arms a one-shot timer that calls `run` again.

Because the baseline moves by whole periods, not by elapsed time, the late
callbacks do not add up. `stop()` cancels the timer it holds.

The model treats each call as a pure step:

- An immutable `Interval` record holds `active`, `baseline`, `timer` and the private `#first`.
- The two clock readings of a call are parameters: `tStart` for line 26 and `tEnd` for line 32.
- `setTimeout` and `clearTimeout` become a `TimerQueue.Queue`. It maps each pending handle to its delay and the period its closure re-enters with. It also holds a counter that supplies fresh handles.

Files:

- `optional.dfy`: `Option` for the fields that can be `undefined`.
- `timer_queue.dfy`: the timer primitive.
- `interval.dfy`: the class itself, with `New`, `Run`, `Tick` (a timer firing into `run`) and `Stop`, plus the state invariant.
- `drift.dfy`: the chain of runs that one call starts. It proves the baselines and timer targets form an arithmetic sequence, and it counts the callback invocations.
- `events.dfy`: arbitrary interleavings of `run`, `stop` and timers firing.
- `fixes.dfy`: the two findings below. For each, the code as written sits next to a corrected definition.

Four behaviours of the code are worth knowing. The model keeps each one as written:

- The delay is computed as `duration - (end - baseline)` after the baseline has already moved (lines 33-35). That is the new baseline plus one more period, minus the end reading. So every timer aims one period past the new baseline. With no time elapsed, the first timer is armed for two periods, where the JSDoc at line 20 promises one.
- In the usage example, with instantaneous callbacks, `run(fn, 1000, true)` calls back at 0, 2000, 3000 and 4000, not every 1000 ms (`Drift.ExampleSchedule`).
- `run` overwrites `timer` without clearing the old one (line 40). A second explicit `run` therefore leaves an orphaned timer chain that `stop` cannot reach (`Scheduler.RerunOrphansTimer`).
- A `stop()` issued from inside the callback is undone by lines 40-41, so the interval keeps running, where the JSDoc at line 48 says `stop` stops it (`Fixes.CallbackStopIsUndone`).

## Model

| member | source | states |
|---|---|---|
| TimerQueue.SetTimeout | src/index.ts:40 | arming a timer returns a handle that was not pending, adds exactly that handle with its delay and captured action, and keeps the handle supply fresh |
| TimerQueue.ClearTimeout | src/index.ts:52 | clearing removes exactly the given handle and leaves every other pending timer as it was |
| TimerQueue.Fire | src/index.ts:40 | a firing timer hands back the action captured when it was armed and stops pending; every other pending timer and the handle supply are left as they were |
| TimerQueue.ClearTimeoutIdempotent | src/index.ts:52 | clearing twice is clearing once, and clearing a handle that does not pend changes nothing |
| Scheduler.New | src/index.ts:2-10 | a new interval is inactive, has no baseline and no timer, has its first tick still ahead, and satisfies the state invariant |
| Scheduler.Run | src/index.ts:24-43 | the baseline is anchored on the clock only when undefined and then moves by exactly one period; the callback is invoked iff it is a later tick or `initial` was asked for; `first` ends false; the delay is the larger of 0 and the time from the end reading to one period past the new baseline; a fresh timer re-entering with the same period is armed and held, nothing earlier is cancelled, and the interval ends active |
| Scheduler.Anchor | src/index.ts:25-27 | the clock reading becomes the baseline only when none is defined; a defined baseline, and every other field, is left as it was |
| Scheduler.Rearm | src/index.ts:30-42 | after the callback: `first` ends false, the baseline moves by exactly one period, the delay is the larger of 0 and the time from the end reading to one period past the new baseline, a fresh timer capturing the period is added without cancelling any other, and the interval ends active holding it, with the invariant established |
| Scheduler.Tick | src/index.ts:40 | when a pending timer fires it stops pending, and its closure re-enters `run` with the period it captured: the baseline moves by that period, the new timer aims one such period past it (or fires at once if late) and captures the same period again; the interval ends active holding a handle that was not pending before; the pending set is exactly the old one less the fired timer plus the new entry, so every other pending timer, an orphaned chain's included, is left as it was; the re-entry always invokes the callback while the invariant holds, and the state invariant is re-established |
| Scheduler.Stop | src/index.ts:50-56 | with a timer held, it is cleared, `timer` becomes undefined and `active` false; with none, nothing changes; `baseline` and `first` are never touched; the invariant is kept |
| Scheduler.StopIdempotent | src/index.ts:50-56 | a second `stop` changes nothing, and after `stop` the interval is inactive unless it held no timer to begin with |
| Scheduler.RunNeverReanchors | src/index.ts:25-27 | once the baseline is defined, the clock reading at the start of `run` has no effect on anything `run` produces |
| Scheduler.FirstDelayIsTwoPeriods | src/index.ts:32-38 | on a new interval with no time passing, the first timer is armed for two periods |
| Scheduler.RerunOrphansTimer | src/index.ts:40-42 | calling `run` while a timer is held leaves that timer pending, distinct from the new one, even after a subsequent `stop` |
| Scheduler.RestartKeepsAnchor | src/index.ts:24-38 | `run` after `stop` keeps the old anchor, always invokes the callback, and arms for 0 once the clock is two periods past the old baseline |
| Drift.SeriesArithmetic | src/index.ts:33-40 | along a chain of timer re-entries from baseline b with period d, the k-th run's baseline is b+(k+1)d and its timer aims at the later of its end reading and b+(k+2)d |
| Drift.SeriesAlwaysInvokes | src/index.ts:29-30 | every timer-driven re-entry invokes the callback |
| Drift.ChainArithmetic | src/index.ts:24-43 | after one `run` call, the k-th run's baseline is k+1 periods past the anchor, and its timer aims at k+2 periods past the anchor or at once if the run ended later; error does not accumulate |
| Drift.TargetsIgnoreCallbackTime | src/index.ts:32-35 | two chains anchored at the same instant whose runs end on time aim their timers at the same instants, however long the callbacks took |
| Drift.ChainInvocations | src/index.ts:29-30 | from a new interval the first run invokes the callback iff `initial`, every later run invokes it, so n runs make n or n-1 invocations |
| Drift.ExampleSchedule | examples/example.ts:5-10 | in the usage example with instantaneous callbacks, the callback runs at 0, 2000, 3000, 4000 and the fourth timer aims at 5000 |
| Events.Step | src/index.ts:24-56 | any single event (a `run` call, a pending timer firing, a `stop` call) keeps the state invariant; `stop` keeps `first`, and every real run clears it |
| Events.ApplyKeepsInvariant | src/index.ts:2-56 | any interleaving of events keeps the invariant: active iff a timer is held, the held timer pends, baseline defined iff the first tick is done |
| Events.FirstNeverResets | src/index.ts:6-30 | once `first` is false, no sequence of events makes it true again |
| Events.AnchorNeverLost | src/index.ts:25-33 | once the baseline is defined, no sequence of events makes it undefined |
| Events.StopAfterAnything | src/index.ts:50-56 | whatever happened before, a `stop` leaves the interval inactive without a held timer |
| Fixes.RunOnTime | src/index.ts:33-35 | the corrected `run` agrees with the written one in state, pending handles and invocation, and its timer aims at the new baseline itself, or fires at once if already late |
| Fixes.OnTimeIsOnePeriodEarlier | src/index.ts:35-38 | for a non-negative period, the corrected delay is the written delay less one period, floored at 0 |
| Fixes.OnTimeFirstDelay | src/index.ts:35 | with no time passing, the corrected first timer waits one period |
| Fixes.RunStoppingCallback | src/index.ts:29-42 | when the callback calls `stop`, the written `run` ends in the same state, with the same freshly armed handle, as if it had not; if the held timer still pends (an explicit `run`), it alone is gone from what the written `run` leaves pending; on a timer-driven tick (the held timer has just fired) or with no timer held, the pending timers are exactly those of the written `run` |
| Fixes.CallbackStopIsUndone | src/index.ts:29-42 | on an explicit `run(fn, duration, true)` from any state, a callback's `stop` leaves the interval active, holding a live timer |
| Fixes.CallbackStopOnTickIsUndone | src/index.ts:29-42 | on a timer-driven tick (the held timer fires and the closure re-enters with its captured period and `initial` false), a callback's `stop` finds the handle that just fired, and the interval still ends active holding a live new timer |
| Fixes.StopBeforeRearm | src/index.ts:29-42 | a `stop` landing between the callback and lines 30-42 leaves the resulting state and armed handle unchanged; of the pending timers only the previously held one is gone |
| Fixes.RunHonouringStop | src/index.ts:29-42 | the guarded `run` arms nothing and ends inactive without a timer when the callback stopped it; otherwise it is exactly the written `run`; the invariant is kept |

## Left out

- Real time and the Node event loop: timers never fire on their own. A firing is an explicit `Tick` or `TimerFires` event naming a pending handle.
- `new Date().getTime()` (lines 26 and 32): the two readings are parameters. No lemma assumes the clock is monotonic.
- Node's own adjustment of delays: it raises a 0 delay to 1 ms and resets delays above 2^31-1 ms to 1 ms. That belongs to the timer primitive, so the queue records the delay that `run` requests.
- The callback's side effects, and an exception thrown by it at line 29. The call is the `invoked` flag, and callbacks are taken not to throw (a throw would skip the re-arm). The one exception is a callback that calls `stop`, which `fixes.dfy` models.
- JavaScript number semantics: floats, NaN, and non-integer or non-positive `duration`. Times and periods are unbounded integers. `duration` is unconstrained except where a lemma needs it to be non-negative.
- The module export wiring (lines 59-65) and the console output of examples/example.ts.

## Findings

| source | as written | input that shows it | evidently intended | confidence | as-written member | corrected member |
|---|---|---|---|---|---|---|
| src/index.ts:33-35 | the delay is computed after the baseline has already moved, so each timer aims one period past the new baseline | `run(fn, 1000, false)` on a new interval with the clock at 0 throughout: the first timer is armed for 2000, so the first callback comes after two periods | the documented "wait the x milliseconds before running it the first time": the first timer waits one period and the k-th aims at the anchor plus k periods | high, not executed | Scheduler.FirstDelayIsTwoPeriods | Fixes.RunOnTime |
| src/index.ts:29-42 | a `stop()` made by the callback is overwritten by line 40 arming a new timer and line 41 setting `active` | a callback that calls `interval.stop()` on any tick: afterwards the interval is active with a new timer pending, and ticks continue | a stop requested mid-tick skips the re-arm and leaves the interval inactive | medium, not executed | Fixes.CallbackStopOnTickIsUndone | Fixes.RunHonouringStop |

The rest of the model keeps to the code as written.
`Fixes.RunHonouringStop` is exactly `Scheduler.Run` whenever the callback does not stop the interval, so the results about `Run` hold for the guarded version in that case too.

=== FILE: drift.dfy ===
/**
 The timer chain one `run` starts: the explicit call, then one re-entry per
 fired timer. Because the baseline moves by exactly one period per run, the
 instants the timers aim at form an arithmetic sequence, whatever the callbacks
 cost.
 */
module Drift {
  import opened Optional
  import opened TimerQueue
  import opened Scheduler

  /**
   The runs made as the timer `h` fires and each re-entry's timer fires in turn,
   one element of `rs` per run.
   */
  function Series(s: Interval, q: Timers, h: Handle, rs: seq<Readings>): (trace: seq<RunResult>)
    requires Valid(q) && h in q.pending
    ensures |trace| == |rs|
    decreases |rs|
  {
    if |rs| == 0 then []
    else
      var r := Tick(s, q, h, rs[0].tStart, rs[0].tEnd);
      [r] + Series(r.state, r.timers, r.handle, rs[1..])
  }

  /** `run(fn, duration, initial)` called once, then left to re-arm itself. */
  function Chain(s: Interval, q: Timers, duration: int, initial: bool, rs: seq<Readings>): (trace: seq<RunResult>)
    requires Valid(q)
    ensures |trace| == |rs|
  {
    if |rs| == 0 then []
    else
      var r := Run(s, q, duration, initial, rs[0].tStart, rs[0].tEnd);
      [r] + Series(r.state, r.timers, r.handle, rs[1..])
  }

  /** The instant the timer armed by a run aims at. */
  function Target(r: RunResult, at: Readings): int {
    at.tEnd + r.delay
  }

  /**
   The runs of `trace` keep to the arithmetic schedule anchored at `b` with period
   `d`: the k-th run leaves the baseline k+1 periods past `b`, and its timer aims at
   the later of its end reading and k+2 periods past `b`.
   */
  predicate OnSchedule(trace: seq<RunResult>, rs: seq<Readings>, b: int, d: int)
    requires |trace| == |rs|
  {
    forall k :: 0 <= k < |rs| ==>
      && trace[k].state.baseline == Some(b + (k + 1) * d)
      && Target(trace[k], rs[k]) == Max(rs[k].tEnd, b + (k + 2) * d)
  }

  /** A run one period past `b`, followed by runs on the schedule one period later, is on the schedule from `b`. */
  lemma PrependOnSchedule(r: RunResult, rest: seq<RunResult>, rs: seq<Readings>, b: int, d: int)
    requires |rs| == |rest| + 1
    requires r.state.baseline == Some(b + d)
    requires Target(r, rs[0]) == Max(rs[0].tEnd, b + 2 * d)
    requires OnSchedule(rest, rs[1..], b + d, d)
    ensures OnSchedule([r] + rest, rs, b, d)
  {
    var trace := [r] + rest;
    forall k | 0 <= k < |rs|
      ensures trace[k].state.baseline == Some(b + (k + 1) * d)
      ensures Target(trace[k], rs[k]) == Max(rs[k].tEnd, b + (k + 2) * d)
    {
      if k > 0 {
        assert trace[k] == rest[k - 1] && rs[k] == rs[1..][k - 1];
        ShiftByOnePeriod(b, d, k);
      }
    }
  }

  /** Along a chain of timer re-entries whose pending timer captured period `d`, the runs keep to the schedule from the baseline `b`. */
  lemma {:induction false} SeriesArithmetic(s: Interval, q: Timers, h: Handle, rs: seq<Readings>, b: int, d: int)
    requires Valid(q) && h in q.pending && q.pending[h].action == d
    requires s.baseline == Some(b)
    ensures OnSchedule(Series(s, q, h, rs), rs, b, d)
    decreases |rs|
  {
    if |rs| > 0 {
      var r := Tick(s, q, h, rs[0].tStart, rs[0].tEnd);
      var rest := Series(r.state, r.timers, r.handle, rs[1..]);
      assert Series(s, q, h, rs) == [r] + rest;
      SeriesArithmetic(r.state, r.timers, r.handle, rs[1..], b + d, d);
      PrependOnSchedule(r, rest, rs, b, d);
    }
  }

  /** Re-indexing a chain that starts one period later. */
  lemma ShiftByOnePeriod(b: int, d: int, k: int)
    ensures (b + d) + ((k - 1) + 1) * d == b + (k + 1) * d
    ensures (b + d) + ((k - 1) + 2) * d == b + (k + 2) * d
  {
  }

  /** Timer-driven runs always invoke the callback while the invariant holds. */
  lemma {:induction false} SeriesAlwaysInvokes(s: Interval, q: Timers, h: Handle, rs: seq<Readings>)
    requires Invariant(s, q) && h in q.pending
    ensures forall k :: 0 <= k < |rs| ==> Series(s, q, h, rs)[k].invoked
    decreases |rs|
  {
    if |rs| > 0 {
      var trace := Series(s, q, h, rs);
      var r := Tick(s, q, h, rs[0].tStart, rs[0].tEnd);
      var rest := Series(r.state, r.timers, r.handle, rs[1..]);
      assert trace == [r] + rest;
      SeriesAlwaysInvokes(r.state, r.timers, r.handle, rs[1..]);
      forall k | 1 <= k < |rs| ensures trace[k].invoked {
        assert trace[k] == rest[k - 1];
      }
    }
  }

  /**
   Drift correction: once `run` is called, with the anchor `b` (the old baseline,
   or the first start reading if none), the k-th run's baseline is exactly k+1
   periods past `b` and its timer aims at k+2 periods past `b` unless the run
   ended later than that, in which case it fires at once. Error does not accumulate.
   */
  lemma ChainArithmetic(s: Interval, q: Timers, duration: int, initial: bool, rs: seq<Readings>)
    requires Valid(q) && |rs| > 0
    ensures OnSchedule(Chain(s, q, duration, initial, rs), rs,
                       if s.baseline.Some? then s.baseline.value else rs[0].tStart, duration)
  {
    var b := if s.baseline.Some? then s.baseline.value else rs[0].tStart;
    var r := Run(s, q, duration, initial, rs[0].tStart, rs[0].tEnd);
    var rest := Series(r.state, r.timers, r.handle, rs[1..]);
    assert Chain(s, q, duration, initial, rs) == [r] + rest;
    SeriesArithmetic(r.state, r.timers, r.handle, rs[1..], b + duration, duration);
    PrependOnSchedule(r, rest, rs, b, duration);
  }

  /** The targets depend only on the anchor: two chains whose runs end on time aim at the same instants. */
  lemma TargetsIgnoreCallbackTime(q: Timers, duration: int, initial: bool, rs1: seq<Readings>, rs2: seq<Readings>)
    requires Valid(q) && |rs1| == |rs2| > 0 && rs1[0].tStart == rs2[0].tStart
    requires forall k :: 0 <= k < |rs1| ==> rs1[k].tEnd <= rs1[0].tStart + (k + 2) * duration
    requires forall k :: 0 <= k < |rs2| ==> rs2[k].tEnd <= rs2[0].tStart + (k + 2) * duration
    ensures var t1 := Chain(New(), q, duration, initial, rs1);
      var t2 := Chain(New(), q, duration, initial, rs2);
      forall k :: 0 <= k < |rs1| ==> Target(t1[k], rs1[k]) == Target(t2[k], rs2[k])
  {
    ChainArithmetic(New(), q, duration, initial, rs1);
    ChainArithmetic(New(), q, duration, initial, rs2);
  }

  /** How many runs of a trace invoked the callback. */
  function Invocations(trace: seq<RunResult>): (n: nat)
    ensures n <= |trace|
  {
    if |trace| == 0 then 0
    else (if trace[0].invoked then 1 else 0) + Invocations(trace[1..])
  }

  lemma {:induction false} AllInvokedCount(trace: seq<RunResult>)
    requires forall k :: 0 <= k < |trace| ==> trace[k].invoked
    ensures Invocations(trace) == |trace|
  {
    if |trace| > 0 {
      AllInvokedCount(trace[1..]);
    }
  }

  /**
   First-tick policy over a whole chain from a new interval: with `initial` every
   run invokes the callback; without it, every run but the first.
   */
  lemma ChainInvocations(q: Timers, duration: int, initial: bool, rs: seq<Readings>)
    requires Invariant(New(), q) && |rs| > 0
    ensures var trace := Chain(New(), q, duration, initial, rs);
      && (trace[0].invoked <==> initial)
      && (forall k :: 1 <= k < |rs| ==> trace[k].invoked)
      && Invocations(trace) == if initial then |rs| else |rs| - 1
  {
    var trace := Chain(New(), q, duration, initial, rs);
    var r := Run(New(), q, duration, initial, rs[0].tStart, rs[0].tEnd);
    var rest := Series(r.state, r.timers, r.handle, rs[1..]);
    assert trace == [r] + rest;
    SeriesAlwaysInvokes(r.state, r.timers, r.handle, rs[1..]);
    AllInvokedCount(rest);
    assert trace[1..] == rest;
    forall k | 1 <= k < |rs| ensures trace[k].invoked {
      assert trace[k] == rest[k - 1];
    }
  }

  /**
   The usage example: `run(fn, 1000, true)` at time 0 with callbacks that take no
   time, each timer firing exactly at its target. The callback runs at 0, 2000,
   3000 and 4000, and the fourth timer aims at 5000, the instant `stop` is called.
   */
  lemma ExampleSchedule(q: Timers)
    requires Invariant(New(), q)
    ensures var rs := [Readings(0, 0), Readings(2000, 2000), Readings(3000, 3000), Readings(4000, 4000)];
      var trace := Chain(New(), q, 1000, true, rs);
      && Target(trace[0], rs[0]) == rs[1].tEnd
      && Target(trace[1], rs[1]) == rs[2].tEnd
      && Target(trace[2], rs[2]) == rs[3].tEnd
      && Target(trace[3], rs[3]) == 5000
      && Invocations(trace) == 4
  {
    var rs := [Readings(0, 0), Readings(2000, 2000), Readings(3000, 3000), Readings(4000, 4000)];
    ChainArithmetic(New(), q, 1000, true, rs);
    ChainInvocations(q, 1000, true, rs);
  }
}

=== FILE: events.dfy ===
/**
 Any interleaving of calls to `run` and `stop` with timers firing. The state
 invariant survives every step, `first` never comes back, and the anchor, once
 set, is never lost.
 */
module Events {
  import opened TimerQueue
  import opened Scheduler

  datatype Event =
    | CallRun(duration: int, initial: bool, at: Readings)   // a caller invokes `run`
    | TimerFires(handle: Handle, at: Readings)              // the host fires a timer
    | CallStop                                              // a caller invokes `stop`

  /**
   One event. Only a pending timer can fire, so a `TimerFires` naming any other
   handle is not a firing and changes nothing.
   */
  function Step(s: Interval, q: Timers, e: Event): (r: (Interval, Timers))
    requires Valid(q)
    ensures Valid(r.1)
    ensures Invariant(s, q) ==> Invariant(r.0, r.1)
    ensures e.CallStop? ==> r.0.first == s.first
    ensures !e.CallStop? && (e.TimerFires? ==> e.handle in q.pending) ==> !r.0.first
  {
    match e
    case CallRun(d, initial, at) =>
      var r := Run(s, q, d, initial, at.tStart, at.tEnd);
      (r.state, r.timers)
    case TimerFires(h, at) =>
      if h in q.pending then
        var r := Tick(s, q, h, at.tStart, at.tEnd);
        (r.state, r.timers)
      else (s, q)
    case CallStop => Stop(s, q)
  }

  function Apply(s: Interval, q: Timers, es: seq<Event>): (r: (Interval, Timers))
    requires Valid(q)
    ensures Valid(r.1)
    decreases |es|
  {
    if |es| == 0 then (s, q)
    else
      var (s', q') := Step(s, q, es[0]);
      Apply(s', q', es[1..])
  }

  /** Whatever happens, the state invariant is kept. */
  lemma {:induction false} ApplyKeepsInvariant(s: Interval, q: Timers, es: seq<Event>)
    requires Invariant(s, q)
    ensures Invariant(Apply(s, q, es).0, Apply(s, q, es).1)
    decreases |es|
  {
    if |es| > 0 {
      var (s', q') := Step(s, q, es[0]);
      ApplyKeepsInvariant(s', q', es[1..]);
    }
  }

  /** After the first tick, no sequence of events makes the interval's next tick a first one again. */
  lemma {:induction false} FirstNeverResets(s: Interval, q: Timers, es: seq<Event>)
    requires Valid(q) && !s.first
    ensures !Apply(s, q, es).0.first
    decreases |es|
  {
    if |es| > 0 {
      var (s', q') := Step(s, q, es[0]);
      FirstNeverResets(s', q', es[1..]);
    }
  }

  /** Once set, the anchor is never cleared: `stop` keeps it and `run` only moves it. */
  lemma {:induction false} AnchorNeverLost(s: Interval, q: Timers, es: seq<Event>)
    requires Valid(q) && s.baseline.Some?
    ensures Apply(s, q, es).0.baseline.Some?
    decreases |es|
  {
    if |es| > 0 {
      var (s', q') := Step(s, q, es[0]);
      AnchorNeverLost(s', q', es[1..]);
    }
  }

  /** Stopping leaves nothing of this interval's held timer pending, whatever came before. */
  lemma StopAfterAnything(s: Interval, q: Timers, es: seq<Event>)
    requires Invariant(s, q)
    ensures var (s', q') := Apply(s, q, es + [CallStop]);
      !s'.active && s'.timer.None?
  {
    ApplyAppend(s, q, es, [CallStop]);
    ApplyKeepsInvariant(s, q, es);
  }

  lemma {:induction false} ApplyAppend(s: Interval, q: Timers, es: seq<Event>, fs: seq<Event>)
    requires Valid(q)
    ensures Apply(s, q, es + fs) == Apply(Apply(s, q, es).0, Apply(s, q, es).1, fs)
    decreases |es|
  {
    if |es| == 0 {
      assert es + fs == fs;
    } else {
      var (s', q') := Step(s, q, es[0]);
      assert (es + fs)[1..] == es[1..] + fs;
      ApplyAppend(s', q', es[1..], fs);
    }
  }
}

=== FILE: fixes.dfy ===
/**
 Two places where `run` as written does not do what its documentation promises, each next to a corrected definition with the intended property proved.
 The rest of the model follows the code as written.
 */
module Fixes {
  import opened Optional
  import opened TimerQueue
  import opened Scheduler

  // ---- The first timer is armed one period too late ----

  /**
   `run` with the delay measured to the new baseline itself, so the k-th timer
   aims at k+1 periods past the anchor rather than k+2.
   */
  function RunOnTime(s: Interval, q: Timers, duration: int, initial: bool, tStart: int, tEnd: int): (r: RunResult)
    requires Valid(q)
    ensures r.state == Run(s, q, duration, initial, tStart, tEnd).state
    ensures r.timers.pending.Keys == Run(s, q, duration, initial, tStart, tEnd).timers.pending.Keys
    ensures r.invoked == Run(s, q, duration, initial, tStart, tEnd).invoked
    ensures tEnd + r.delay == Max(tEnd, r.state.baseline.value)
    ensures r.handle in r.timers.pending && r.timers.pending[r.handle] == Pending(r.delay, duration)
    ensures Invariant(r.state, r.timers)
  {
    var s' := Anchor(s, tStart);
    var baseline := s'.baseline.value + duration;
    var nextTick := baseline - tEnd;
    var delay := if nextTick < 0 then 0 else nextTick;
    var (h, q') := SetTimeout(q, delay, duration);
    RunResult(Interval(true, Some(baseline), Some(h), false), q', h, Invokes(s, initial), delay)
  }

  /** The corrected delay is the written one less a period, floored at 0. */
  lemma OnTimeIsOnePeriodEarlier(s: Interval, q: Timers, duration: int, initial: bool, tStart: int, tEnd: int)
    requires Valid(q) && duration >= 0
    ensures RunOnTime(s, q, duration, initial, tStart, tEnd).delay
         == Max(0, Run(s, q, duration, initial, tStart, tEnd).delay - duration)
  {
  }

  /** With no time passing in the first call, the corrected first timer waits one period. */
  lemma OnTimeFirstDelay(q: Timers, duration: int, initial: bool, t: int)
    requires Valid(q) && duration >= 0
    ensures RunOnTime(New(), q, duration, initial, t, t).delay == duration
  {
  }

  // ---- `stop` called by the callback is undone ----

  /**
   `run` as written when the callback itself calls `stop()` (line 29): the stop
   lands before lines 30-42, which then arm a new timer and set `active` again.
   */
  function RunStoppingCallback(s: Interval, q: Timers, duration: int, initial: bool, tStart: int, tEnd: int): (r: RunResult)
    requires Valid(q)
    ensures r.state == Run(s, q, duration, initial, tStart, tEnd).state
    ensures r.handle in r.timers.pending
    ensures r.handle == Run(s, q, duration, initial, tStart, tEnd).handle
    // the callback's `stop` removes the held timer when it still pends, and nothing else
    ensures r.invoked && s.timer.Some? && s.timer.value in q.pending ==>
      r.timers.pending == Run(s, q, duration, initial, tStart, tEnd).timers.pending - {s.timer.value}
    // on a tick (the held timer has just fired), with no timer held, or without the callback, it changes nothing
    ensures !(r.invoked && s.timer.Some? && s.timer.value in q.pending) ==>
      r.timers == Run(s, q, duration, initial, tStart, tEnd).timers
  {
    var s' := Anchor(s, tStart);
    var invoked := Invokes(s, initial);
    if invoked then
      StopBeforeRearm(s', q, duration, tEnd);
      var (s'', q') := Stop(s', q);
      Rearm(s'', q', duration, invoked, tEnd)
    else
      Rearm(s', q, duration, invoked, tEnd)
  }

  /**
   A `stop` between anchoring and lines 30-42 changes only which timers pend:
   the same handle is armed and held, and only the previously held timer is gone.
   */
  lemma StopBeforeRearm(s: Interval, q: Timers, duration: int, tEnd: int)
    requires Valid(q) && s.baseline.Some?
    ensures Rearm(Stop(s, q).0, Stop(s, q).1, duration, true, tEnd).state == Rearm(s, q, duration, true, tEnd).state
    ensures Rearm(Stop(s, q).0, Stop(s, q).1, duration, true, tEnd).handle == Rearm(s, q, duration, true, tEnd).handle
    ensures s.timer.Some? && s.timer.value in q.pending ==>
      Rearm(Stop(s, q).0, Stop(s, q).1, duration, true, tEnd).timers.pending
        == Rearm(s, q, duration, true, tEnd).timers.pending - {s.timer.value}
  {
    if s.timer.Some? {
      var g := s.timer.value;
      var s' := s.(timer := None, active := false);
      var q' := ClearTimeout(q, g);
      var r := Rearm(s', q', duration, true, tEnd);
      var w := Rearm(s, q, duration, true, tEnd);
      assert r.delay == w.delay;
      ClearThenSetTimeout(q, g, w.delay, duration);
    }
  }

  /** The callback stopped the interval, yet afterwards it is active with a live timer. */
  lemma CallbackStopIsUndone(s: Interval, q: Timers, duration: int, tStart: int, tEnd: int)
    requires Valid(q)
    ensures var r := RunStoppingCallback(s, q, duration, true, tStart, tEnd);
      r.invoked && r.state.active && r.state.timer == Some(r.handle) && r.handle in r.timers.pending
  {
  }

  /**
   The same on a timer-driven tick: the held timer fires, the closure re-enters
   `run` with the captured period and `initial` false, and the callback's `stop`
   finds the handle that just fired. Ticks go on.
   */
  lemma CallbackStopOnTickIsUndone(s: Interval, q: Timers, tStart: int, tEnd: int)
    requires Invariant(s, q) && s.timer.Some?
    ensures var (d, q') := Fire(q, s.timer.value);
      var r := RunStoppingCallback(s, q', d, false, tStart, tEnd);
      r.invoked && r.state.active && r.state.timer == Some(r.handle) && r.handle in r.timers.pending
  {
  }

  /** What a guarded `run` yields: no handle when the callback stopped the interval. */
  datatype GuardedResult = GuardedResult(state: Interval, timers: Timers, handle: Option<Handle>, invoked: bool)

  /**
   `run` that checks, after the callback, whether the callback asked to stop, and
   then skips arming. `callbackStops` says whether the callback calls `stop()`.
   */
  function RunHonouringStop(s: Interval, q: Timers, duration: int, initial: bool, callbackStops: bool,
                            tStart: int, tEnd: int): (r: GuardedResult)
    requires Valid(q)
    ensures r.invoked == Invokes(s, initial)
    ensures r.invoked && callbackStops ==> r.state.timer.None? && r.handle.None?
    ensures r.invoked && callbackStops && Consistent(s) ==> !r.state.active
    ensures r.invoked && callbackStops ==> r.timers.pending.Keys <= q.pending.Keys
    ensures !(r.invoked && callbackStops) ==>
      var w := Run(s, q, duration, initial, tStart, tEnd);
      r == GuardedResult(w.state, w.timers, Some(w.handle), w.invoked)
    ensures Invariant(s, q) ==> Invariant(r.state, r.timers)
  {
    var s' := Anchor(s, tStart);
    var invoked := Invokes(s, initial);
    if invoked && callbackStops then
      var (s'', q') := Stop(s', q);
      GuardedResult(s''.(first := false), q', None, invoked)
    else
      var w := Rearm(s', q, duration, invoked, tEnd);
      GuardedResult(w.state, w.timers, Some(w.handle), w.invoked)
  }
}

=== FILE: interval.dfy ===
/**
 The `Interval` class: a drift-correcting periodic scheduler. One call of `run`
 is a pure step from a state and a timer queue to the next state and queue; the
 two clock readings it takes, and the timer primitive, are explicit inputs.
 */
module Scheduler {
  import opened Optional
  import opened TimerQueue

  /**
   The four fields of an `Interval`. `first` is the private `#first` flag.
   Every timer the interval arms captures the period its `run` re-enters with.
   */
  datatype Interval = Interval(active: bool, baseline: Option<int>, timer: Option<Handle>, first: bool)

  type Timers = Queue<int>

  /** What one `run` produces: the new state and queue, the handle it returns,
      whether it invoked the callback, and the delay it armed the timer with. */
  datatype RunResult = RunResult(state: Interval, timers: Timers, handle: Handle, invoked: bool, delay: int)

  /** The two clock readings one `run` may take: before the callback and after it. */
  datatype Readings = Readings(tStart: int, tEnd: int)

  /**
   What holds of an interval between calls: it is active exactly while it holds
   a timer handle, and it has an anchor exactly once its first tick is done.
   */
  predicate Consistent(s: Interval) {
    (s.active <==> s.timer.Some?) && (s.baseline.Some? <==> !s.first)
  }

  /**
   The interval together with the timers it armed: the held handle still pends,
   and no timer pends before the first `run`.
   */
  predicate Invariant(s: Interval, q: Timers) {
    && Consistent(s)
    && Valid(q)
    && (s.timer.Some? ==> s.timer.value in q.pending)
    && (|q.pending| > 0 ==> !s.first)
  }

  /** The later of two instants. */
  function Max(a: int, b: int): (m: int)
    ensures m >= a && m >= b
    ensures m == a || m == b
  {
    if a >= b then a else b
  }

  /** `new Interval()`. */
  function New(): (s: Interval)
    ensures !s.active && s.baseline.None? && s.timer.None? && s.first
    ensures Invariant(s, Empty())
  {
    Interval(false, None, None, true)
  }

  /** The callback runs on a tick exactly when it is not the first, or the first was asked for. */
  predicate Invokes(s: Interval, initial: bool) {
    (initial && s.first) || !s.first
  }

  /**
   `run(fn, duration, initial)`. `tStart` is the clock reading used to anchor an
   unset baseline, `tEnd` the reading taken after the callback returned.
   */
  function Run(s: Interval, q: Timers, duration: int, initial: bool, tStart: int, tEnd: int): (r: RunResult)
    requires Valid(q)
    // the anchor is the clock only when unset, and moves by exactly one period
    ensures s.baseline.None? ==> r.state.baseline == Some(tStart + duration)
    ensures s.baseline.Some? ==> r.state.baseline == Some(s.baseline.value + duration)
    // the first tick fires only when asked for; every later one always fires
    ensures r.invoked <==> (s.first ==> initial)
    ensures !r.state.first
    // the delay is the time left until one period past the new baseline, floored at 0
    ensures r.delay >= 0
    ensures r.delay >= r.state.baseline.value + duration - tEnd
    ensures r.delay == 0 || tEnd + r.delay == r.state.baseline.value + duration
    // a fresh timer re-entering with the same period; nothing armed earlier is cancelled
    ensures r.handle !in q.pending
    ensures r.timers.pending == q.pending[r.handle := Pending(r.delay, duration)]
    ensures r.state.active && r.state.timer == Some(r.handle)
    ensures Invariant(r.state, r.timers)
  {
    Rearm(Anchor(s, tStart), q, duration, Invokes(s, initial), tEnd)
  }

  /** Lines 25-27: the clock reading becomes the anchor only when none is set. */
  function Anchor(s: Interval, tStart: int): (s': Interval)
    ensures s.baseline.None? ==> s'.baseline == Some(tStart)
    ensures s.baseline.Some? ==> s' == s
    ensures s'.(baseline := s.baseline) == s
  {
    if s.baseline.None? then s.(baseline := Some(tStart)) else s
  }

  /**
   Lines 30-42, once the callback has (or has not) run: clear `first`, move the
   baseline one period, arm the timer and go active.
   */
  function Rearm(s: Interval, q: Timers, duration: int, invoked: bool, tEnd: int): (r: RunResult)
    requires Valid(q) && s.baseline.Some?
    ensures r.invoked == invoked
    ensures r.state.baseline == Some(s.baseline.value + duration)
    ensures !r.state.first
    ensures r.delay >= 0
    ensures r.delay >= r.state.baseline.value + duration - tEnd
    ensures r.delay == 0 || tEnd + r.delay == r.state.baseline.value + duration
    ensures r.handle !in q.pending
    ensures r.timers.pending == q.pending[r.handle := Pending(r.delay, duration)]
    ensures r.state.active && r.state.timer == Some(r.handle)
    ensures Invariant(r.state, r.timers)
  {
    var baseline := s.baseline.value + duration;
    var nextTick := duration - (tEnd - baseline);
    var delay := if nextTick < 0 then 0 else nextTick;
    var (h, q') := SetTimeout(q, delay, duration);
    RunResult(Interval(true, Some(baseline), Some(h), false), q', h, invoked, delay)
  }

  /**
   The host fires the pending timer `h`: its closure calls `run` again with the
   period it captured and no `initial` argument, which defaults to false.
   */
  function Tick(s: Interval, q: Timers, h: Handle, tStart: int, tEnd: int): (r: RunResult)
    requires Valid(q) && h in q.pending
    ensures h !in r.timers.pending && r.handle in r.timers.pending
    // a fresh timer, armed with the captured period, replaces the fired one; nothing else changes
    ensures r.handle !in q.pending
    ensures r.timers.pending == (q.pending - {h})[r.handle := Pending(r.delay, q.pending[h].action)]
    // lines 40-41 of the re-entered `run`: the new timer is held and the interval is active
    ensures r.state.active && r.state.timer == Some(r.handle)
    // no other pending timer, an orphaned chain's included, is touched
    ensures forall g :: g != h && g in q.pending ==> g in r.timers.pending && r.timers.pending[g] == q.pending[g]
    // the re-entry runs with the period the timer captured, and its own timer captures it again
    ensures s.baseline.Some? ==> r.state.baseline == Some(s.baseline.value + q.pending[h].action)
    ensures r.state.baseline.Some?
    ensures tEnd + r.delay == Max(tEnd, r.state.baseline.value + q.pending[h].action)
    ensures r.timers.pending[r.handle].action == q.pending[h].action
    ensures Invariant(s, q) ==> r.invoked
    ensures Invariant(r.state, r.timers)
  {
    var (duration, q') := Fire(q, h);
    Run(s, q', duration, false, tStart, tEnd)
  }

  /** `stop()`: cancels the held timer and goes inactive; without a timer it does nothing. */
  function Stop(s: Interval, q: Timers): (r: (Interval, Timers))
    ensures s.timer.Some? ==> !r.0.active && r.0.timer.None?
    ensures s.timer.Some? ==> r.1 == ClearTimeout(q, s.timer.value)
    ensures s.timer.None? ==> r == (s, q)
    ensures r.0.baseline == s.baseline && r.0.first == s.first
    ensures Invariant(s, q) ==> Invariant(r.0, r.1)
  {
    match s.timer
    case Some(h) => (s.(timer := None, active := false), ClearTimeout(q, h))
    case None => (s, q)
  }

  lemma StopIdempotent(s: Interval, q: Timers)
    ensures Stop(Stop(s, q).0, Stop(s, q).1) == Stop(s, q)
    ensures !Stop(s, q).0.active || s.timer.None?
  {
  }

  /** Once anchored, the clock reading taken at the start of `run` has no influence. */
  lemma RunNeverReanchors(s: Interval, q: Timers, duration: int, initial: bool, t1: int, t2: int, tEnd: int)
    requires Valid(q) && s.baseline.Some?
    ensures Run(s, q, duration, initial, t1, tEnd) == Run(s, q, duration, initial, t2, tEnd)
  {
  }

  /**
   With no time passing during the first call, the first timer is armed for two
   periods, not one.
   */
  lemma FirstDelayIsTwoPeriods(q: Timers, duration: int, initial: bool, t: int)
    requires Valid(q) && duration >= 0
    ensures Run(New(), q, duration, initial, t, t).delay == 2 * duration
  {
  }

  /**
   `run` on an interval that already holds a timer does not cancel it: the old
   timer still pends after a later `stop`, which only clears the new one.
   */
  lemma RerunOrphansTimer(s: Interval, q: Timers, duration: int, initial: bool, tStart: int, tEnd: int)
    requires Invariant(s, q) && s.timer.Some?
    ensures var r := Run(s, q, duration, initial, tStart, tEnd);
      var (s', q') := Stop(r.state, r.timers);
      s.timer.value in q'.pending && !s'.active && s.timer.value != r.handle
  {
  }

  /**
   Restarting after `stop` keeps the old anchor rather than re-reading the clock;
   once the clock is a period or more past the new baseline the timer is armed for 0,
   so the missed ticks follow in a burst.
   */
  lemma RestartKeepsAnchor(s: Interval, q: Timers, duration: int, initial: bool, tStart: int, tEnd: int)
    requires Invariant(s, q) && s.baseline.Some?
    ensures var (s', q') := Stop(s, q);
      var r := Run(s', q', duration, initial, tStart, tEnd);
      && r.state.baseline == Some(s.baseline.value + duration)
      && r.invoked
      && (tEnd >= s.baseline.value + 2 * duration ==> r.delay == 0)
  {
  }
}

=== FILE: optional.dfy ===
/** The optional values the scheduler's fields hold before they are first set. */
module Optional {

  /** `undefined` in the source is `None`; a defined value is `Some`. */
  datatype Option<+T> = None | Some(value: T)
}

=== FILE: timer_queue.dfy ===
/**
 A model of the host's single-shot timer primitive (`setTimeout` / `clearTimeout`).
 Real time does not pass here: the queue only records which timers are armed and
 not yet fired or cancelled, the delay each was armed with and the action it will
 run, together with the supply of fresh handles.
 */
module TimerQueue {

  /** A timer handle; every armed timer gets a distinct one. */
  type Handle = nat

  /** An armed timer: the requested delay and the action captured for it. */
  datatype Pending<A> = Pending(delay: int, action: A)

  datatype Queue<A> = Queue(pending: map<Handle, Pending<A>>, nextId: nat)

  /** Every pending handle was drawn from the supply, so `nextId` is fresh. */
  predicate Valid<A>(q: Queue<A>) {
    forall h :: h in q.pending ==> h < q.nextId
  }

  /** No timer armed yet. */
  function Empty<A>(): (q: Queue<A>)
    ensures Valid(q)
    ensures |q.pending| == 0
  {
    Queue(map[], 0)
  }

  /** `setTimeout(action, delay)`: arms one new timer and returns its handle. */
  function SetTimeout<A>(q: Queue<A>, delay: int, action: A): (r: (Handle, Queue<A>))
    requires Valid(q)
    ensures r.0 !in q.pending
    ensures r.1.pending == q.pending[r.0 := Pending(delay, action)]
    ensures Valid(r.1)
  {
    (q.nextId, Queue(q.pending[q.nextId := Pending(delay, action)], q.nextId + 1))
  }

  /**
   `clearTimeout(h)`: the timer no longer pends. A handle that already fired or
   was already cleared is left alone, so clearing is harmless to repeat.
   */
  function ClearTimeout<A>(q: Queue<A>, h: Handle): (r: Queue<A>)
    ensures h !in r.pending
    ensures forall g :: g != h && g in q.pending ==> g in r.pending && r.pending[g] == q.pending[g]
    ensures forall g :: g in r.pending ==> g in q.pending
    ensures r.nextId == q.nextId
    ensures Valid(q) ==> Valid(r)
  {
    Queue(q.pending - {h}, q.nextId)
  }

  /**
   The host fires a pending timer: it stops pending (exactly as if cleared) and
   its captured action is handed back to be run.
   */
  function Fire<A>(q: Queue<A>, h: Handle): (r: (A, Queue<A>))
    requires h in q.pending
    ensures r.0 == q.pending[h].action
    ensures h !in r.1.pending && r.1.nextId == q.nextId
    ensures forall g :: g != h && g in q.pending ==> g in r.1.pending && r.1.pending[g] == q.pending[g]
    ensures forall g :: g in r.1.pending ==> g in q.pending
  {
    (q.pending[h].action, ClearTimeout(q, h))
  }

  /** Clearing a pending timer before arming another arms the same handle and leaves the same set, less the cleared one. */
  lemma ClearThenSetTimeout<A>(q: Queue<A>, g: Handle, delay: int, action: A)
    requires Valid(q)
    ensures SetTimeout(ClearTimeout(q, g), delay, action).0 == SetTimeout(q, delay, action).0
    ensures g in q.pending ==>
      SetTimeout(ClearTimeout(q, g), delay, action).1.pending == SetTimeout(q, delay, action).1.pending - {g}
  {
  }

  lemma ClearTimeoutIdempotent<A>(q: Queue<A>, h: Handle)
    ensures ClearTimeout(ClearTimeout(q, h), h) == ClearTimeout(q, h)
    ensures h !in q.pending ==> ClearTimeout(q, h) == q
  {
  }
}
